=== FILE: README.md ===
# Upload gallery core, in Dafny

This project models the upload orchestration core of the "Pixels" image gallery.
The gallery is a React page over the Uppy upload library and the Cloudinary image host.
The model covers four pieces:

- **File projection** (`syncFiles`). Each Uppy file record becomes one display entry. Its status is derived in a fixed priority: complete, then error, then uploading, then pending. Missing fields get defaults.
- **Progress aggregation** (`updateOverallProgress`). This computes the file count, the completed count, the total and uploaded bytes, a rounded percentage, and an estimated time remaining. The estimate is only given while an upload session runs.
- **Hook state** (`useUppy`). The displayed list, the progress record, the `isUploading` flag and the session start time all change under the hook's actions (`uploadAll`, `cancelAll`, `retryAll`, `retryFile`, `removeFile`, `clearCompleted`, `clearAll`). They also change under the events the library emits.
- **Page predicates** (`page.tsx`). These decide which drop zone, which buttons and which progress panel are shown for a hook state.

It also models the **upload plugin** (`CloudinaryUploader`). The plugin fans out one transfer per file id, builds the endpoint and the two-field multipart body, and turns each transfer's outcome into `upload-started`, `upload-progress`, `upload-success` and `upload-error` events.

Files:

- `types.dfy`: display entry, overall progress, the library's file record, and the JavaScript truthiness helpers.
- `seqs.dfy`: order-preserving filter, map and sum, with their lemmas.
- `file_sync.dfy`: the projection.
- `aggregation.dfy`: the aggregation. It has a loop method mirroring the source's `forEach`, and a reference function built on filtered sums.
- `hook.dfy`: hook state, transitions and the consistency invariant.
- `page.dfy`: the page view.
- `uploader.dfy`: the plugin.

Modelling choices:

- Calls into the upload library (`upload`, `cancelAll`, `retryAll`, `retryUpload`, `removeFile`, `clear`) are not modelled. Where the hook reads the library's list after such a call, that list is a parameter (`snapshot`).
- `Date.now()` is a parameter `now` in integer milliseconds.
- `Math.round(a / b)` with `b > 0` is the integer `(2a + b) div 2b`. Dafny's division floors for a positive divisor, so this rounds halves up, as `Math.round` does.
- The estimate is `round(remaining * elapsedMs / (1000 * uploaded))`. The source divides the remaining bytes by the rate `uploaded / elapsedSeconds`, which is the same value. When no time has elapsed, both give 0.
- JavaScript `||` is modelled explicitly. An empty name falls back to `'Unknown'`. An empty `uploadURL` falls back to the body's `url`. An empty error string does not count as an error. A start time of 0 counts as no start time.
- A transfer's outcome is an input to the model. It holds the browser's progress samples and how the request ended: a load with a status and a body that may not parse, a network error, or an end that no listener sees.

Where the code differs from what the design of such a system would suggest (the model follows the code):

- No concurrency cap or queue exists. `MAX_CONCURRENT_UPLOADS` is imported but unused, and the plugin starts every transfer at once (`StartPhase`).
- Progress values are not clipped and not checked for monotonicity. The plugin passes `loaded`/`total` through (`ProgressEffects`), and the projection passes the library's percentage through. Any bound on uploaded bytes is therefore a precondition (`BytesWithinSize`).
- A completed upload wins over a recorded error.
- Adding a file re-reads the list but does not recompute the progress record. Until an upload event arrives, the header therefore shows the old totals, or 0/0 from a fresh start, beside a non-empty grid (`AddedFilesShowStaleCounter`).
- A complete entry need not carry a URL: `secure_url` may be missing, and the projection then falls back to the body's `url`, or to nothing.
- The uploaded URL is computed but never shown. Each entry stores it as `uploadURL`, but the gallery's image cards render only the local preview, and no component reads `uploadURL`.
- `retryFile` changes no hook state. `removeFile` and `clearCompleted` both rely on the library's `file-removed` event, which fires before the library call returns, to re-read the list. The model treats that re-read as part of the action, so in a run of inputs no separate file-removed input follows them.
- If a 2xx response's body is not JSON, `JSON.parse` throws inside the load listener; if it is the JSON value `null`, reading `secure_url` from it throws the same way. No event is emitted and the transfer's promise never settles. The model keeps this behaviour (`Finish`, `SettlementAgrees`).

## Model

| member | source | states |
|---|---|---|
| FileSync.DeriveStatus | src/hooks/useUppy.ts:140-147 | complete iff the library marks the upload complete; error iff not complete and a non-empty error is set; uploading iff neither and the upload started; pending otherwise, so complete wins over error |
| FileSync.EntryURL | src/hooks/useUppy.ts:157 | the URL stored on an entry: none without a response; a non-empty `uploadURL` is used; otherwise the body's `url` as it is |
| FileSync.Project | src/hooks/useUppy.ts:149-159 | same id and preview; status from the priority; a non-empty name or type is kept, while a missing or empty one becomes 'Unknown' or ''; a present size is kept, otherwise 0; the library's percentage is passed through unclipped, otherwise 0; the stored URL is `EntryURL` of the response; a non-empty error is kept as it is and otherwise none is shown, so every error entry carries its reason |
| FileSync.SyncFiles | src/hooks/useUppy.ts:137-162 | one entry per library record, same length and order; entry i is the projection of record i, so it has record i's id and derived status |
| FileSync.ProgressInRange | src/hooks/useUppy.ts:155 | an entry's progress lies in 0..100 whenever the library's percentage does; the projection adds no clipping |
| Aggregation.TotalBytes | src/hooks/useUppy.ts:171-172 | the total is the sum of sizes, and it splits into the sizes of complete files plus the sizes of the rest |
| Aggregation.CompletedFiles | src/hooks/useUppy.ts:173-174 | the completed count plus the number of unfinished files is the file count |
| Aggregation.RoundDiv | src/hooks/useUppy.ts:181 | the result r satisfies a/b - 1/2 < r <= a/b + 1/2, i.e. round-half-up |
| Aggregation.Percentage | src/hooks/useUppy.ts:181 | 0 when there are no bytes, otherwise the round-half-up of 100 * uploaded / total |
| Aggregation.StartTruthy | src/hooks/useUppy.ts:198 | a start time is reported exactly when one is set and is not 0 |
| Aggregation.Eta | src/hooks/useUppy.ts:184-190 | an estimate is present iff a start time is set, some bytes are uploaded and the percentage is below 100; when present it is round(remaining * elapsed / uploaded) in seconds |
| Aggregation.Aggregate | src/hooks/useUppy.ts:165-201 | file count is the list length; completed count is the number of complete files; total bytes are the sum of sizes; uploaded bytes are sizes over complete files plus reported bytes over the rest; the percentage is the rounded share of the record's own byte counters; the start time is the session's, with 0 counting as none; the estimate is exactly Eta over those counters, so it is present iff a start time is set, bytes are uploaded and the percentage is below 100 |
| Aggregation.UpdateOverallProgress | src/hooks/useUppy.ts:165-201 | the single-pass loop with its if/else-if computes exactly the filtered-sum decomposition, with no byte counted twice |
| Aggregation.AccumulateOne | src/hooks/useUppy.ts:171-179 | one more file adds its size to the total and either its size (complete) or its reported bytes (unfinished) to the uploaded bytes |
| Aggregation.PercentageInRange | src/hooks/useUppy.ts:173-181 | when every unfinished file reports at most its size, uploaded <= total and the percentage lies in 0..100 |
| Aggregation.PercentageBounded | src/hooks/useUppy.ts:181 | round(100 * u / t) lies in 0..100 when u <= t |
| Aggregation.PercentageMonotone | src/hooks/useUppy.ts:181 | more uploaded bytes never lower the percentage |
| Aggregation.EtaNonNegative | src/hooks/useUppy.ts:184-190 | with bytes within sizes and a start no later than now, a given estimate leaves bytes to go and is never negative |
| Aggregation.AllCompleteFinishes | src/hooks/useUppy.ts:171-190 | when every file is complete, all files count as complete, uploaded bytes equal total bytes, and with any bytes the percentage is 100 and no estimate is given |
| Hook.Resync | src/hooks/useUppy.ts:69-88 | file-added, file-removed and thumbnail events replace the list with the projection of the snapshot and keep progress and flags |
| Hook.OnTransferEvent | src/hooks/useUppy.ts:91-106 | progress, success and error events re-project the list and recompute progress against the current start time, flags unchanged |
| Hook.OnComplete | src/hooks/useUppy.ts:109-114 | the batch's complete event clears the flag and the start time before recomputing, so the new progress has no start time and no estimate |
| Hook.StartSession | src/hooks/useUppy.ts:230-263 | uploadAll (230-245) and retryAll (257-263) both set isUploading and start the session at now, leaving list and progress unchanged |
| Hook.CancelAll | src/hooks/useUppy.ts:247-255 | clears isUploading and the start time, re-projects the list and recomputes progress with no estimate |
| Hook.RetryFile | src/hooks/useUppy.ts:265-269 | changes neither the flag, the start time, the list nor progress |
| Hook.RemoveFile | src/hooks/useUppy.ts:271-276 | the list is re-read after the library's file-removed event, then progress is recomputed over the remaining list against the current start time; flags unchanged |
| Hook.RemoveCompleted | src/hooks/useUppy.ts:281-286 | no complete file remains, and the remaining count plus the completed count is the original count |
| Hook.ClearCompleted | src/hooks/useUppy.ts:278-288 | progress is recomputed over the list without complete files, so it counts none complete; the list is re-projected when something was removed and left exactly as it was when nothing was; flags unchanged |
| Hook.ClearAll | src/hooks/useUppy.ts:290-304 | no files, all-zero progress with no start time or estimate, not uploading, no start time |
| Hook.StepKeepsConsistent | src/hooks/useUppy.ts:108-304 | every event and action keeps "uploading iff a start time is held, and outside a session no start time or estimate is reported" |
| Hook.RunConsistent | src/hooks/useUppy.ts:30-39 | from the initial state, any sequence of events and actions leaves the hook consistent |
| Hook.ClearAllResets | src/hooks/useUppy.ts:290-304 | clearAll returns to the initial state, and applying it twice equals applying it once |
| Hook.RemoveCompletedOrder | src/hooks/useUppy.ts:281-286 | removal keeps exactly the unfinished files, distributes over concatenation (order kept) and is idempotent |
| Hook.ClearCompletedDisplay | src/hooks/useUppy.ts:278-288 | the list shown after clearCompleted is the list before it with exactly the complete entries dropped, in order |
| Page.PendingFiles | src/app/page.tsx:25 | exactly the entries whose status is pending or uploading |
| Page.PendingFilesOrder | src/app/page.tsx:25 | the pending list of a concatenation is the concatenation of pending lists, so order is preserved |
| Page.Render | src/app/page.tsx:42-140 | header counter iff files exist; large drop zone iff none, compact iff some; Upload All iff some entry is pending or uploading and no upload runs, with that count; Cancel iff files and uploading; Retry Failed iff an error entry and not uploading; Clear Completed iff a complete entry and not uploading; Clear All iff files and not uploading; progress panel iff uploading, showing the active count, the record's percentage and its estimate |
| Page.ExactlyOneDropZone | src/app/page.tsx:53-65 | exactly one of the two drop zones is shown |
| Page.CancelExcludesOthers | src/app/page.tsx:70-110 | Cancel is never offered with Upload All, Retry Failed, Clear Completed or Clear All |
| Page.UploadAllNeedsFiles | src/app/page.tsx:68-76 | the Upload All count is positive and at most the number of files |
| Page.ClearCompletedAgreesWithCounter | src/app/page.tsx:24 | on a projected list, Clear Completed is offered iff the progress record counts a completed file and no upload runs |
| Page.RetryAgreesWithErrors | src/app/page.tsx:23 | on a projected list, Retry Failed is offered iff some unfinished file carries an error and no upload runs |
| Page.SessionEndHidesPanel | src/app/page.tsx:78-140 | after cancelAll or the complete event, neither Cancel nor the progress panel is shown |
| Page.PanelOnlyInSession | src/app/page.tsx:115-131 | in a consistent hook state the progress panel implies a running session, and outside one no estimate exists |
| Page.AddedFilesShowStaleCounter | src/hooks/useUppy.ts:69-77 | after files are added to a fresh hook, the list is non-empty while the header counter still reads 0 of 0, because adding files does not recompute progress |
| Uploader.UploadEndpoint | src/utils/CloudinaryUploader.ts:43 | the URL is the fixed prefix, then exactly the cloud name, then the fixed `/image/upload` suffix |
| Uploader.EndpointRoundTrip | src/utils/CloudinaryUploader.ts:43 | the cloud name can be read back from the endpoint |
| Uploader.CloudNameOfInverse | src/utils/CloudinaryUploader.ts:43 | every URL of the endpoint's shape is the endpoint of the cloud name read from it |
| Uploader.EndpointInjective | src/utils/CloudinaryUploader.ts:43 | distinct cloud names give distinct endpoints |
| Uploader.ConfigFromEnv | src/utils/cloudinary.ts:5-8 | the cloud name and the preset come from their environment variables when set and non-empty, otherwise from the placeholders 'YOUR_CLOUD_NAME' and 'YOUR_UPLOAD_PRESET' |
| Uploader.RequestUsesConfiguredUrl | src/utils/cloudinary.ts:10 | the configuration module's upload URL equals the plugin's endpoint for the same cloud name, so each request opens an async POST to the configured URL |
| Uploader.FormBodyContents | src/utils/CloudinaryUploader.ts:37-39 | the body holds exactly two fields, `file` then `upload_preset`, carrying the file and the preset; any other name is absent |
| Uploader.ProgressEffects | src/utils/CloudinaryUploader.ts:49-56 | one progress event per length-computable sample, in order, carrying `loaded` and `total` unchanged; other samples emit nothing |
| Uploader.UploadFile | src/utils/CloudinaryUploader.ts:31-92 | the trace starts with upload-started, then the POST open, then the send; everything after is an event for the same file and none is another start; the trace is exactly three effects, plus one progress event per computable sample, plus one end event when the request succeeded or failed |
| Uploader.StartedBeforeRequest | src/utils/CloudinaryUploader.ts:35-86 | upload-started comes before any request open or send, and is emitted exactly once per transfer |
| Uploader.ProgressPassesThrough | src/utils/CloudinaryUploader.ts:49-56 | right after the request, the trace holds the progress events for the computable samples, values unchanged |
| Uploader.SuccessIff | src/utils/CloudinaryUploader.ts:59-69 | upload-success is emitted iff the load had a 2xx status and a JSON body, then exactly once, and its URL is the body's `secure_url` |
| Uploader.ErrorIff | src/utils/CloudinaryUploader.ts:70-83 | upload-error is emitted iff the load had another status ("Upload failed") or the network failed ("Network error"), then exactly once |
| Uploader.SettlementAgrees | src/utils/CloudinaryUploader.ts:59-83 | no transfer emits both success and error; it resolves iff it succeeded, rejects iff it failed, and stays pending otherwise |
| Uploader.Upload | src/utils/CloudinaryUploader.ts:24-29 | an empty id list resolves with no transfer; otherwise there is exactly one transfer per id, in order, each with its own outcome |
| Uploader.UploadSettles | src/utils/CloudinaryUploader.ts:27-28 | the batch resolves iff every transfer succeeds and rejects iff some transfer fails |
| Uploader.OneStartPerId | src/utils/CloudinaryUploader.ts:27 | the batch emits exactly one upload-started per id in the list |
| Uploader.StartPhase | src/utils/CloudinaryUploader.ts:27-28 | all transfers are started, opened and sent in list order before any response, with no cap or queue |
| Uploader.StartPhaseMatchesRuns | src/utils/CloudinaryUploader.ts:27-28 | each id's slot in the start phase is the beginning of that id's own trace |
| Uploader.EntryUrlIsSecureUrl | src/utils/CloudinaryUploader.ts:62-68 | for a file holding the plugin's success response, the entry's `uploadURL` is `secure_url`, or the body's `url` when `secure_url` is missing or empty |

## Left out

- Adding files and validation (`addFiles`, allowed types, the 10 MiB limit): the library enforces these, so they are left out. `constants.ts` only supplies the values.
- The concurrency cap and queue: the code has none (see above).
- The `'progress'` listener (useUppy.ts:117-122): it overwrites the percentage with the library's own figure. That is a second writer whose value comes from the library.
- Thumbnail generation and the meta scrubbing on `file-added`, plus the `upload_preset` meta set in `uploadAll`: these are library calls.
- What the library does inside `upload`, `cancelAll`, `retryAll`, `retryUpload`, `removeFile` and `clear`: the list after each call is a parameter. Nothing is claimed about how the library resets bytes or statuses.
- The `if (!uppy) return` guard in every action: the model starts with the library instance present.
- Floating point: `Math.round` on doubles is replaced by exact integer rounding. The MB figures (`toFixed(1)`) are not shown. `Math.ceil` of the estimate is the identity on the model's integer estimate.
- React state, effects, render batching and console logging.
- XMLHttpRequest, FormData, `JSON.parse` and promise plumbing: only their outcome-level behaviour is kept. An exception thrown while setting up the request (the `catch` at CloudinaryUploader.ts:88-91) is not modelled.
- `getFile` on an id the library does not hold: not modelled, because ids come from the library itself.
- Plugin installation (`install`/`uninstall`). Reading the environment itself is also left out: its values are parameters of `ConfigFromEnv`.
- The presentation components (`DropZone`, `ImageCard`, `MasonryGrid`).
- Uploader.Upload: the batch's rejection reason is not modelled, because which transfer rejects first depends on network timing.
- Uploader.UploadFile: all progress samples are placed before the request's end. Interleaving with other transfers' events is not modelled.

=== FILE: aggregation.dfy ===
/**
 Overall progress (`updateOverallProgress` in src/hooks/useUppy.ts): file and
 byte totals, a rounded percentage and an estimated time remaining, computed
 from one snapshot of the library's file records.

 `Math.round` of a positive-denominator ratio a/b is modelled as the
 integer round-half-up `RoundDiv(a, b)`; times are integer milliseconds.
 */
module Aggregation {
  import opened Types
  import opened Seqs

  predicate IsIncomplete(f: RawFile) {
    !UploadComplete(f)
  }

  /** Every file that has not finished reports no more bytes than its size.
      The code does not enforce this; it is what the source of the counters
      is expected to deliver. */
  predicate BytesWithinSize(raws: seq<RawFile>) {
    forall i :: 0 <= i < |raws| && IsIncomplete(raws[i]) ==> BytesOf(raws[i]) <= SizeOf(raws[i])
  }

  function TotalBytes(raws: seq<RawFile>): (n: nat)
    ensures n == Sum(Filter(raws, UploadComplete), SizeOf) + Sum(Filter(raws, IsIncomplete), SizeOf)
  {
    SumPartition(raws, SizeOf, UploadComplete, IsIncomplete);
    Sum(raws, SizeOf)
  }

  /** Finished files count with their whole size, the others with the bytes
      reported so far; no file is counted twice. */
  function UploadedBytes(raws: seq<RawFile>): nat {
    Sum(Filter(raws, UploadComplete), SizeOf) + Sum(Filter(raws, IsIncomplete), BytesOf)
  }

  function CompletedFiles(raws: seq<RawFile>): (n: nat)
    ensures n <= |raws|
    ensures n + |Filter(raws, IsIncomplete)| == |raws|
  {
    FilterPartitionLength(raws, UploadComplete, IsIncomplete);
    |Filter(raws, UploadComplete)|
  }

  /** Rounding a / b to the nearest integer for b > 0: the integer r with a/b - 1/2 < r <= a/b + 1/2,
      halves rounded up. */
  function RoundDiv(a: int, b: int): (r: int)
    requires b > 0
    ensures 2 * b * r <= 2 * a + b < 2 * b * r + 2 * b
  {
    (2 * a + b) / (2 * b)
  }

  /** The uploaded share of the total bytes as a whole-number percentage,
      rounded to nearest, or 0 when there are no bytes. */
  function Percentage(uploaded: nat, total: nat): (p: int)
    ensures total == 0 ==> p == 0
    ensures total > 0 ==> 2 * total * p <= 200 * uploaded + total < 2 * total * p + 2 * total
  {
    if total > 0 then RoundDiv(100 * uploaded, total) else 0
  }

  /** The start time as reported: absent when unset, and also when it is 0,
      which JavaScript treats as false. */
  function StartTruthy(start: Option<int>): (r: Option<int>)
    ensures r.Some? <==> start.Some? && start.value != 0
    ensures r.Some? ==> r == start
  {
    if start.Some? && start.value != 0 then start else None
  }

  /** The estimate in seconds: remaining / (uploaded / elapsed), rounded, given
      only while a session runs, something was uploaded and the bar is short
      of 100%. */
  function Eta(start: Option<int>, uploaded: nat, total: nat, now: int): (eta: Option<int>)
    ensures eta.Some? <==> StartTruthy(start).Some? && uploaded > 0 && Percentage(uploaded, total) < 100
    ensures eta.Some? ==>
      var a, b := (total - uploaded) * (now - start.value), 1000 * uploaded;
      2 * b * eta.value <= 2 * a + b < 2 * b * eta.value + 2 * b
  {
    if StartTruthy(start).Some? && uploaded > 0 && Percentage(uploaded, total) < 100 then
      Some(RoundDiv((total - uploaded) * (now - start.value), 1000 * uploaded))
    else
      None
  }

  /** The progress record the hook computes from a snapshot. */
  function Aggregate(raws: seq<RawFile>, start: Option<int>, now: int): (p: OverallProgress)
    ensures p.totalFiles == |raws| && p.completedFiles <= p.totalFiles
    ensures p.completedFiles == |Filter(raws, UploadComplete)|
    ensures p.totalBytes == Sum(raws, SizeOf)
    ensures p.uploadedBytes == Sum(Filter(raws, UploadComplete), SizeOf) + Sum(Filter(raws, IsIncomplete), BytesOf)
    ensures p.startTime.Some? <==> start.Some? && start.value != 0
    ensures p.startTime == StartTruthy(start)
    ensures p.percentage == Percentage(p.uploadedBytes, p.totalBytes)
    ensures p.estimatedTimeRemaining == Eta(start, p.uploadedBytes, p.totalBytes, now)
    ensures p.estimatedTimeRemaining.Some? ==> p.startTime.Some? && p.uploadedBytes > 0 && p.percentage < 100
  {
    Assemble(|raws|, CompletedFiles(raws), TotalBytes(raws), UploadedBytes(raws), start, now)
  }

  /** The record built from the four counters: the percentage and estimate
      derive from the byte counters alone. */
  function Assemble(files: nat, completed: nat, total: nat, uploaded: nat, start: Option<int>, now: int): OverallProgress {
    OverallProgress(files, completed, total, uploaded,
                    Percentage(uploaded, total), StartTruthy(start), Eta(start, uploaded, total, now))
  }

  /** The forEach loop of the source: one pass, adding a finished file's size
      or an unfinished file's reported bytes, never both. */
  method UpdateOverallProgress(raws: seq<RawFile>, start: Option<int>, now: int) returns (p: OverallProgress)
    ensures p == Aggregate(raws, start, now)
  {
    var totalBytes: nat, uploadedBytes: nat, completedFiles: nat := 0, 0, 0;
    var i := 0;
    while i < |raws|
      invariant 0 <= i <= |raws|
      invariant totalBytes == Sum(raws[..i], SizeOf)
      invariant uploadedBytes == UploadedBytes(raws[..i])
      invariant completedFiles == CompletedFiles(raws[..i])
    {
      var f := raws[i];
      assert raws[..i + 1] == raws[..i] + [f];
      AccumulateOne(raws[..i], f);
      totalBytes := totalBytes + SizeOf(f);
      if UploadComplete(f) {
        completedFiles := completedFiles + 1;
        uploadedBytes := uploadedBytes + SizeOf(f);
      } else if BytesOf(f) > 0 {
        uploadedBytes := uploadedBytes + BytesOf(f);
      }
      i := i + 1;
    }
    assert raws[..i] == raws;
    p := Assemble(|raws|, completedFiles, totalBytes, uploadedBytes, start, now);
  }

  /** One more file adds its size to the total, and to the uploaded bytes
      either its size (finished) or its reported bytes (unfinished). */
  lemma AccumulateOne(s: seq<RawFile>, f: RawFile)
    ensures Sum(s + [f], SizeOf) == Sum(s, SizeOf) + SizeOf(f)
    ensures UploadedBytes(s + [f]) == UploadedBytes(s) + (if UploadComplete(f) then SizeOf(f) else BytesOf(f))
    ensures CompletedFiles(s + [f]) == CompletedFiles(s) + (if UploadComplete(f) then 1 else 0)
  {
    SumSnoc(s, f, SizeOf);
    var c, n := Filter(s, UploadComplete), Filter(s, IsIncomplete);
    FilterSnoc(s, f, UploadComplete);
    FilterSnoc(s, f, IsIncomplete);
    if UploadComplete(f) {
      assert Filter(s + [f], UploadComplete) == c + [f];
      assert Filter(s + [f], IsIncomplete) == n;
      SumSnoc(c, f, SizeOf);
    } else {
      assert Filter(s + [f], UploadComplete) == c;
      assert Filter(s + [f], IsIncomplete) == n + [f];
      SumSnoc(n, f, BytesOf);
    }
  }

  /** With every unfinished file within its size, the uploaded bytes never
      exceed the total and the percentage lies in 0..100. */
  lemma PercentageInRange(raws: seq<RawFile>, start: Option<int>, now: int)
    requires BytesWithinSize(raws)
    ensures Aggregate(raws, start, now).uploadedBytes <= Aggregate(raws, start, now).totalBytes
    ensures 0 <= Aggregate(raws, start, now).percentage <= 100
  {
    var incomplete := Filter(raws, IsIncomplete);
    FilterMembers(raws, IsIncomplete);
    forall k | 0 <= k < |incomplete|
      ensures BytesOf(incomplete[k]) <= SizeOf(incomplete[k])
    {
      assert incomplete[k] in raws;
    }
    SumMonotone(incomplete, BytesOf, SizeOf);
    var p := Aggregate(raws, start, now);
    PercentageBounded(p.uploadedBytes, p.totalBytes);
  }

  /** round(100 * u / t) lies in 0..100 when u <= t. */
  lemma PercentageBounded(uploaded: nat, total: nat)
    requires uploaded <= total
    ensures 0 <= Percentage(uploaded, total) <= 100
  {
    if total > 0 {
      var p := Percentage(uploaded, total);
      MulMonotone(2 * total, 101, p);
      MulMonotone(2 * total, p, -1);
    }
  }

  /** Multiplying by a non-negative factor keeps the order. */
  lemma MulMonotone(k: nat, a: int, b: int)
    ensures a <= b ==> k * a <= k * b
  {
  }

  /** A larger uploaded figure never lowers the percentage. */
  lemma PercentageMonotone(u1: nat, u2: nat, total: nat)
    requires u1 <= u2
    ensures Percentage(u1, total) <= Percentage(u2, total)
  {
    if total > 0 {
      var p1, p2 := Percentage(u1, total), Percentage(u2, total);
      MulMonotone(2 * total, p2 + 1, p1);
    }
  }

  /** A percentage short of 100 leaves bytes to go, so an estimate given for a
      session that started no later than `now` is never negative. */
  lemma EtaNonNegative(raws: seq<RawFile>, start: Option<int>, now: int)
    requires BytesWithinSize(raws)
    requires start.Some? && start.value <= now
    ensures Aggregate(raws, start, now).estimatedTimeRemaining.Some? ==>
              Aggregate(raws, start, now).uploadedBytes < Aggregate(raws, start, now).totalBytes &&
              Aggregate(raws, start, now).estimatedTimeRemaining.value >= 0
  {
    var p := Aggregate(raws, start, now);
    if p.estimatedTimeRemaining.Some? {
      PercentageInRange(raws, start, now);
      var u, t := p.uploadedBytes, p.totalBytes;
      BelowFullLeavesBytes(u, t);
      var e := p.estimatedTimeRemaining.value;
      var a, b := (t - u) * (now - start.value), 1000 * u;
      MulMonotone(t - u, 0, now - start.value);
      MulMonotone(2 * b, e, -1);
    }
  }

  /** A percentage short of 100 over a positive total means some bytes remain. */
  lemma BelowFullLeavesBytes(u: nat, t: nat)
    requires 0 < u <= t && Percentage(u, t) < 100
    ensures u < t
  {
    MulMonotone(2 * t, Percentage(u, t) + 1, 100);
  }

  /** When every file has finished, all bytes count as uploaded, the counter
      reads all files and, with any bytes at all, the bar is full and no
      estimate is given. */
  lemma {:induction false} AllCompleteFinishes(raws: seq<RawFile>, start: Option<int>, now: int)
    requires forall i :: 0 <= i < |raws| ==> UploadComplete(raws[i])
    ensures Aggregate(raws, start, now).completedFiles == |raws|
    ensures Aggregate(raws, start, now).uploadedBytes == Aggregate(raws, start, now).totalBytes
    ensures Aggregate(raws, start, now).totalBytes > 0 ==>
              Aggregate(raws, start, now).percentage == 100 &&
              Aggregate(raws, start, now).estimatedTimeRemaining.None?
  {
    FilterKeepsAll(raws, UploadComplete);
    FilterKeepsNone(raws, IsIncomplete);
    var p := Aggregate(raws, start, now);
    if p.totalBytes > 0 {
      var t := p.totalBytes;
      MulMonotone(2 * t, 101, p.percentage);
      MulMonotone(2 * t, p.percentage + 1, 100);
    }
  }
}

=== FILE: file_sync.dfy ===
/**
 The projection of the upload library's file records onto display entries
 (`syncFiles` in src/hooks/useUppy.ts). Each record becomes one entry with the
 same id; the status is derived in a fixed priority and missing fields fall
 back to defaults.
 */
module FileSync {
  import opened Types
  import opened Seqs

  /** The display status. A finished upload wins over a recorded error, and an
      error wins over an upload that has started. */
  function DeriveStatus(f: RawFile): (st: FileStatus)
    ensures st == Complete <==> UploadComplete(f)
    ensures st == Error <==> !UploadComplete(f) && HasError(f)
    ensures st == Uploading <==> !UploadComplete(f) && !HasError(f) && UploadStarted(f)
    ensures st == Pending <==> !UploadComplete(f) && !HasError(f) && !UploadStarted(f)
  {
    if UploadComplete(f) then Complete
    else if HasError(f) then Error
    else if UploadStarted(f) then Uploading
    else Pending
  }

  /** The URL stored on a file's entry: the response's upload URL when it is non-empty,
      otherwise the URL in the response body, whatever it is. */
  function EntryURL(response: Option<RawResponse>): (u: Option<string>)
    ensures response.None? ==> u.None?
    ensures response.Some? && Truthy(response.value.uploadURL) ==> u == response.value.uploadURL
    ensures response.Some? && !Truthy(response.value.uploadURL) ==> u == response.value.bodyUrl
  {
    match response
    case None => None
    case Some(r) => Or(r.uploadURL, r.bodyUrl)
  }

  /** One display entry for one library record. */
  function Project(f: RawFile): (e: FileEntry)
    ensures e.id == f.id && e.status == DeriveStatus(f)
    ensures Truthy(f.name) ==> e.name == f.name.value
    ensures !Truthy(f.name) ==> e.name == "Unknown"
    ensures f.size.Some? ==> e.size == f.size.value
    ensures f.size.None? ==> e.size == 0
    ensures Truthy(f.mimeType) ==> e.mimeType == f.mimeType.value
    ensures !Truthy(f.mimeType) ==> e.mimeType == ""
    ensures f.progress.Some? && f.progress.value.percentage.Some? ==>
              e.progress == f.progress.value.percentage.value
    ensures f.progress.None? || f.progress.value.percentage.None? ==> e.progress == 0
    ensures e.preview == f.preview
    ensures e.uploadURL == EntryURL(f.response)
    ensures e.error.Some? <==> HasError(f)
    ensures HasError(f) ==> e.error == f.error
    ensures e.status == Error ==> e.error.Some?
    ensures e.size == SizeOf(f)
  {
    FileEntry(
      f.id,
      OrElse(f.name, "Unknown"),
      SizeOf(f),
      OrElse(f.mimeType, ""),
      DeriveStatus(f),
      if f.progress.Some? then f.progress.value.percentage.GetOr(0) else 0,
      f.preview,
      EntryURL(f.response),
      if HasError(f) then f.error else None)
  }

  /** The whole display list: one entry per record, same order, same ids. */
  function SyncFiles(raws: seq<RawFile>): (entries: seq<FileEntry>)
    ensures |entries| == |raws|
    ensures forall i :: 0 <= i < |raws| ==> entries[i].id == raws[i].id
    ensures forall i :: 0 <= i < |raws| ==> entries[i].status == DeriveStatus(raws[i])
    ensures forall i :: 0 <= i < |raws| ==> entries[i] == Project(raws[i])
  {
    Map(raws, Project)
  }

  /** An entry's progress lies in 0..100 whenever the library's percentage
      does; the projection itself neither clips nor checks it. */
  lemma ProgressInRange(f: RawFile)
    requires f.progress.Some? && f.progress.value.percentage.Some? ==>
               0 <= f.progress.value.percentage.value <= 100
    ensures 0 <= Project(f).progress <= 100
  {
  }
}

=== FILE: hook.dfy ===
/**
 The hook's own state and its transitions (src/hooks/useUppy.ts): the
 displayed file list, the overall progress record, the `isUploading` flag and
 the upload start time.

 The upload library is not modelled. Where an action calls into it
 (`cancelAll`, `removeFile`, `retryUpload`, `upload`) the library's file list
 after that call is a parameter, `snapshot`, and the current time `now` is an
 integer millisecond parameter.
 */
module Hook {
  import opened Types
  import opened Seqs
  import opened FileSync
  import opened Aggregation

  datatype HookState = HookState(
    files: seq<FileEntry>,
    progress: OverallProgress,
    isUploading: bool,
    uploadStartTime: Option<int>)

  /** The state the hook is created with. */
  const Initial := HookState([], NoProgress, false, None)

  /** `file-added`, `file-removed` and `thumbnail:generated`: re-read the file
      list; progress and flags stay. */
  function Resync(s: HookState, snapshot: seq<RawFile>): (r: HookState)
    ensures r.files == SyncFiles(snapshot)
    ensures r.progress == s.progress && r.isUploading == s.isUploading && r.uploadStartTime == s.uploadStartTime
  {
    s.(files := SyncFiles(snapshot))
  }

  /** `upload-progress`, `upload-success` and `upload-error`: re-read the file
      list and recompute progress against the current start time. */
  function OnTransferEvent(s: HookState, snapshot: seq<RawFile>, now: int): (r: HookState)
    ensures r.files == SyncFiles(snapshot)
    ensures r.progress == Aggregate(snapshot, s.uploadStartTime, now)
    ensures r.isUploading == s.isUploading && r.uploadStartTime == s.uploadStartTime
  {
    s.(files := SyncFiles(snapshot), progress := Aggregate(snapshot, s.uploadStartTime, now))
  }

  /** `complete`: the batch is over; the flag and the start time are cleared
      before progress is recomputed, so no estimate survives. */
  function OnComplete(s: HookState, snapshot: seq<RawFile>, now: int): (r: HookState)
    ensures !r.isUploading && r.uploadStartTime.None?
    ensures r.files == SyncFiles(snapshot)
    ensures r.progress == Aggregate(snapshot, None, now)
    ensures r.progress.startTime.None? && r.progress.estimatedTimeRemaining.None?
  {
    HookState(SyncFiles(snapshot), Aggregate(snapshot, None, now), false, None)
  }

  /** `uploadAll` and `retryAll`: start a session at `now`. Both hand the work
      to the library and change the hook's state alike; the file list and
      progress are left to the events the library emits. */
  function StartSession(s: HookState, now: int): (r: HookState)
    ensures r.isUploading && r.uploadStartTime == Some(now)
    ensures r.files == s.files && r.progress == s.progress
  {
    s.(isUploading := true, uploadStartTime := Some(now))
  }

  /** `cancelAll`: end the session, then re-read the list the library left. */
  function CancelAll(s: HookState, snapshot: seq<RawFile>, now: int): (r: HookState)
    ensures !r.isUploading && r.uploadStartTime.None?
    ensures r.files == SyncFiles(snapshot)
    ensures r.progress == Aggregate(snapshot, None, now)
    ensures r.progress.estimatedTimeRemaining.None?
  {
    HookState(SyncFiles(snapshot), Aggregate(snapshot, None, now), false, None)
  }

  /** `retryFile`: hands the file to the library and touches no hook state. */
  function RetryFile(s: HookState, fileId: string): (r: HookState)
    ensures r.isUploading == s.isUploading && r.uploadStartTime == s.uploadStartTime
    ensures r.files == s.files && r.progress == s.progress
  {
    s
  }

  /** `removeFile`: the library drops the file and announces it with a
      `file-removed` event before the call returns, so the list is re-read;
      then progress is recomputed over the list the library left. As with
      `clearCompleted`, that event is part of the action here. */
  function RemoveFile(s: HookState, snapshot: seq<RawFile>, now: int): (r: HookState)
    ensures r.files == SyncFiles(snapshot)
    ensures r.progress == Aggregate(snapshot, s.uploadStartTime, now)
    ensures r.isUploading == s.isUploading && r.uploadStartTime == s.uploadStartTime
  {
    HookState(SyncFiles(snapshot), Aggregate(snapshot, s.uploadStartTime, now), s.isUploading, s.uploadStartTime)
  }

  /** The library's list after `clearCompleted` removed every finished file. */
  function RemoveCompleted(snapshot: seq<RawFile>): (rest: seq<RawFile>)
    ensures forall i :: 0 <= i < |rest| ==> !UploadComplete(rest[i])
    ensures |rest| + CompletedFiles(snapshot) == |snapshot|
  {
    FilterPartitionLength(snapshot, UploadComplete, IsIncomplete);
    Filter(snapshot, IsIncomplete)
  }

  /** `clearCompleted`: remove the finished files, then recompute progress.
      Each removal re-reads the list, so the list changes only when something
      was removed. */
  function ClearCompleted(s: HookState, snapshot: seq<RawFile>, now: int): (r: HookState)
    ensures r.progress == Aggregate(RemoveCompleted(snapshot), s.uploadStartTime, now)
    ensures r.progress.completedFiles == 0
    ensures |RemoveCompleted(snapshot)| < |snapshot| ==> r.files == SyncFiles(RemoveCompleted(snapshot))
    ensures |RemoveCompleted(snapshot)| == |snapshot| ==> r.files == s.files
    ensures r.isUploading == s.isUploading && r.uploadStartTime == s.uploadStartTime
  {
    var rest := RemoveCompleted(snapshot);
    FilterIdempotent(snapshot, IsIncomplete);
    FilterKeepsNone(rest, UploadComplete);
    HookState(
      if |rest| < |snapshot| then SyncFiles(rest) else s.files,
      Aggregate(rest, s.uploadStartTime, now),
      s.isUploading,
      s.uploadStartTime)
  }

  /** `clearAll`: every file gone, progress zeroed, no session. */
  function ClearAll(s: HookState): (r: HookState)
    ensures r.files == [] && r.progress == NoProgress
    ensures !r.isUploading && r.uploadStartTime.None?
  {
    HookState([], NoProgress, false, None)
  }

  /** Which per-file transfer event arrived; the hook handles all three alike. */
  datatype Kind = Progress | Success | Failure

  /** Every input the hook reacts to: library events and user actions. */
  datatype Action =
    | FileAdded(snapshot: seq<RawFile>)
    | FileRemoved(snapshot: seq<RawFile>)
    | ThumbnailGenerated(snapshot: seq<RawFile>)
    | Transfer(kind: Kind, snapshot: seq<RawFile>)
    | BatchComplete(snapshot: seq<RawFile>)
    | DoUploadAll
    | DoCancelAll(snapshot: seq<RawFile>)
    | DoRetryAll
    | DoRetryFile(fileId: string)
    | DoRemoveFile(snapshot: seq<RawFile>)
    | DoClearCompleted(snapshot: seq<RawFile>)
    | DoClearAll

  function Step(s: HookState, a: Action, now: int): HookState {
    match a
    case FileAdded(snap) => Resync(s, snap)
    case FileRemoved(snap) => Resync(s, snap)
    case ThumbnailGenerated(snap) => Resync(s, snap)
    case Transfer(_, snap) => OnTransferEvent(s, snap, now)
    case BatchComplete(snap) => OnComplete(s, snap, now)
    case DoUploadAll => StartSession(s, now)
    case DoCancelAll(snap) => CancelAll(s, snap, now)
    case DoRetryAll => StartSession(s, now)
    case DoRetryFile(id) => RetryFile(s, id)
    case DoRemoveFile(snap) => RemoveFile(s, snap, now)
    case DoClearCompleted(snap) => ClearCompleted(s, snap, now)
    case DoClearAll => ClearAll(s)
  }

  datatype Timed = Timed(action: Action, now: int)

  /** The state after a sequence of timed inputs, oldest first. */
  function Run(s: HookState, inputs: seq<Timed>): HookState
    decreases |inputs|
  {
    if |inputs| == 0 then s
    else Step(Run(s, inputs[..|inputs| - 1]), inputs[|inputs| - 1].action, inputs[|inputs| - 1].now)
  }

  /** A session is running exactly when a start time is held, and outside a
      session the progress record carries neither a start time nor an
      estimate. */
  predicate Consistent(s: HookState) {
    && (s.isUploading <==> s.uploadStartTime.Some?)
    && (!s.isUploading ==> s.progress.startTime.None? && s.progress.estimatedTimeRemaining.None?)
  }

  /** Every input keeps the hook consistent. */
  lemma StepKeepsConsistent(s: HookState, a: Action, now: int)
    requires Consistent(s)
    ensures Consistent(Step(s, a, now))
  {
  }

  /** The hook is consistent after any sequence of inputs from its initial
      state. */
  lemma {:induction false} RunConsistent(inputs: seq<Timed>)
    ensures Consistent(Run(Initial, inputs))
    decreases |inputs|
  {
    if |inputs| > 0 {
      RunConsistent(inputs[..|inputs| - 1]);
      StepKeepsConsistent(Run(Initial, inputs[..|inputs| - 1]), inputs[|inputs| - 1].action, inputs[|inputs| - 1].now);
    }
  }

  /** `clearAll` returns the hook to its initial state, so a second call
      changes nothing. */
  lemma ClearAllResets(s: HookState)
    ensures ClearAll(s) == Initial
    ensures ClearAll(ClearAll(s)) == ClearAll(s)
  {
  }

  /** The finished files are removed, the others kept in order: removal
      distributes over concatenation and a second pass removes nothing. */
  lemma RemoveCompletedOrder(a: seq<RawFile>, b: seq<RawFile>)
    ensures RemoveCompleted(a + b) == RemoveCompleted(a) + RemoveCompleted(b)
    ensures RemoveCompleted(RemoveCompleted(a)) == RemoveCompleted(a)
    ensures forall f :: f in RemoveCompleted(a) <==> f in a && !UploadComplete(f)
  {
    FilterConcat(a, b, IsIncomplete);
    FilterIdempotent(a, IsIncomplete);
    FilterMembers(a, IsIncomplete);
  }

  predicate NotCompleteEntry(e: FileEntry) {
    e.status != Complete
  }

  /** The displayed list after `clearCompleted` is the displayed list before
      it with exactly the complete entries dropped, in the same order. */
  lemma ClearCompletedDisplay(snapshot: seq<RawFile>)
    ensures SyncFiles(RemoveCompleted(snapshot)) == Filter(SyncFiles(snapshot), NotCompleteEntry)
  {
    MapFilterCommute(snapshot, Project, IsIncomplete, NotCompleteEntry);
  }
}

=== FILE: page.dfy ===
/**
 The gallery page (src/app/page.tsx) as a function from the hook's state to
 what is shown: the header counter, one of two drop zones, the action buttons
 and the progress panel. Styling and the MB figures are left out.
 */
module Page {
  import opened Types
  import opened Seqs
  import opened FileSync
  import opened Aggregation
  import opened Hook

  predicate HasFiles(files: seq<FileEntry>) {
    |files| > 0
  }

  /** Some entry is in the error state. */
  predicate HasFailedFiles(files: seq<FileEntry>) {
    exists i :: 0 <= i < |files| && files[i].status == Error
  }

  /** Some entry has finished uploading. */
  predicate HasCompletedFiles(files: seq<FileEntry>) {
    exists i :: 0 <= i < |files| && files[i].status == Complete
  }

  predicate IsActive(e: FileEntry) {
    e.status == Pending || e.status == Uploading
  }

  /** The entries still to be uploaded or being uploaded, in list order. */
  function PendingFiles(files: seq<FileEntry>): (r: seq<FileEntry>)
    ensures forall e :: e in r <==> e in files && (e.status == Pending || e.status == Uploading)
    ensures |r| <= |files|
  {
    FilterMembers(files, IsActive);
    Filter(files, IsActive)
  }

  /** The pending list of two lists joined is their pending lists joined: the
      filter keeps the original order. */
  lemma PendingFilesOrder(a: seq<FileEntry>, b: seq<FileEntry>)
    ensures PendingFiles(a + b) == PendingFiles(a) + PendingFiles(b)
  {
    FilterConcat(a, b, IsActive);
  }

  datatype Counter = Counter(completed: nat, total: nat)

  /** "Uploading N files...", the percentage and the optional "~Ns remaining". */
  datatype ProgressPanel = ProgressPanel(activeFiles: nat, percentage: int, etaSeconds: Option<int>)

  datatype View = View(
    header: Option<Counter>,
    largeDropZone: bool,
    compactDropZone: bool,
    uploadAll: Option<nat>,
    cancel: bool,
    retryFailed: bool,
    clearCompleted: bool,
    clearAll: bool,
    panel: Option<ProgressPanel>)

  /** What the page shows for a hook state. The buttons sit inside the
      "files exist" block; the progress panel does not. */
  function Render(files: seq<FileEntry>, progress: OverallProgress, isUploading: bool): (v: View)
    ensures v.header.Some? <==> |files| > 0
    ensures v.header.Some? ==> v.header.value == Counter(progress.completedFiles, progress.totalFiles)
    ensures v.largeDropZone <==> |files| == 0
    ensures v.compactDropZone <==> |files| > 0
    ensures v.uploadAll.Some? <==> |PendingFiles(files)| > 0 && !isUploading
    ensures v.uploadAll.Some? ==> v.uploadAll.value == |PendingFiles(files)|
    ensures v.cancel <==> |files| > 0 && isUploading
    ensures v.retryFailed <==> HasFailedFiles(files) && !isUploading
    ensures v.clearCompleted <==> HasCompletedFiles(files) && !isUploading
    ensures v.clearAll <==> |files| > 0 && !isUploading
    ensures v.panel.Some? <==> isUploading
    ensures v.panel.Some? ==> v.panel.value.activeFiles == |PendingFiles(files)|
    ensures v.panel.Some? ==> v.panel.value.percentage == progress.percentage
    ensures v.panel.Some? ==> v.panel.value.etaSeconds == progress.estimatedTimeRemaining
  {
    var hasFiles := HasFiles(files);
    var pending := PendingFiles(files);
    View(
      if hasFiles then Some(Counter(progress.completedFiles, progress.totalFiles)) else None,
      !hasFiles,
      hasFiles,
      if hasFiles && |pending| > 0 && !isUploading then Some(|pending|) else None,
      hasFiles && isUploading,
      hasFiles && HasFailedFiles(files) && !isUploading,
      hasFiles && HasCompletedFiles(files) && !isUploading,
      hasFiles && !isUploading,
      if isUploading then Some(ProgressPanel(|pending|, progress.percentage, progress.estimatedTimeRemaining)) else None)
  }

  /** Exactly one drop zone is shown. */
  lemma ExactlyOneDropZone(files: seq<FileEntry>, progress: OverallProgress, isUploading: bool)
    ensures Render(files, progress, isUploading).largeDropZone != Render(files, progress, isUploading).compactDropZone
  {
  }

  /** Cancel is never offered together with any other action. */
  lemma CancelExcludesOthers(files: seq<FileEntry>, progress: OverallProgress, isUploading: bool)
    ensures var v := Render(files, progress, isUploading);
      v.cancel ==> v.uploadAll.None? && !v.retryFailed && !v.clearCompleted && !v.clearAll
  {
  }

  /** A non-empty count of entries to upload lies within a non-empty list. */
  lemma UploadAllNeedsFiles(files: seq<FileEntry>, progress: OverallProgress, isUploading: bool)
    ensures Render(files, progress, isUploading).uploadAll.Some? ==>
              0 < Render(files, progress, isUploading).uploadAll.value <= |files|
  {
  }

  /** "Clear Completed" is offered on the projected list exactly when the
      progress record counts a completed file and no upload runs, so the
      header counter and the button agree. */
  lemma ClearCompletedAgreesWithCounter(raws: seq<RawFile>, start: Option<int>, now: int, isUploading: bool)
    ensures Render(SyncFiles(raws), Aggregate(raws, start, now), isUploading).clearCompleted <==>
              Aggregate(raws, start, now).completedFiles > 0 && !isUploading
  {
    FilterNonEmpty(raws, UploadComplete);
    var files := SyncFiles(raws);
    if exists i :: 0 <= i < |raws| && UploadComplete(raws[i]) {
      var i :| 0 <= i < |raws| && UploadComplete(raws[i]);
      assert files[i].status == Complete;
    }
  }

  /** "Retry Failed" is offered on the projected list exactly when some file
      that has not finished carries an error and no upload runs. */
  lemma RetryAgreesWithErrors(raws: seq<RawFile>, progress: OverallProgress, isUploading: bool)
    ensures Render(SyncFiles(raws), progress, isUploading).retryFailed <==>
              (exists i :: 0 <= i < |raws| && !UploadComplete(raws[i]) && HasError(raws[i])) && !isUploading
  {
    var files := SyncFiles(raws);
    if exists i :: 0 <= i < |raws| && !UploadComplete(raws[i]) && HasError(raws[i]) {
      var i :| 0 <= i < |raws| && !UploadComplete(raws[i]) && HasError(raws[i]);
      assert files[i].status == Error;
    }
  }

  /** After `cancelAll` or the batch's `complete` the page offers no Cancel
      and shows no progress panel. */
  lemma SessionEndHidesPanel(s: HookState, snapshot: seq<RawFile>, now: int)
    ensures var c := CancelAll(s, snapshot, now);
      !Render(c.files, c.progress, c.isUploading).cancel && Render(c.files, c.progress, c.isUploading).panel.None?
    ensures var c := OnComplete(s, snapshot, now);
      !Render(c.files, c.progress, c.isUploading).cancel && Render(c.files, c.progress, c.isUploading).panel.None?
  {
  }

  /** Adding files re-reads the list but does not recompute progress, so from
      the initial state the header shows a zero counter beside a non-empty
      list until an upload event arrives. */
  lemma AddedFilesShowStaleCounter(snapshot: seq<RawFile>)
    requires |snapshot| > 0
    ensures var s := Resync(Initial, snapshot);
      |s.files| > 0 && Render(s.files, s.progress, s.isUploading).header == Some(Counter(0, 0))
  {
  }

  /** While a consistent hook shows the progress panel, any estimate it shows
      belongs to a running session. */
  lemma PanelOnlyInSession(s: HookState)
    requires Consistent(s)
    ensures Render(s.files, s.progress, s.isUploading).panel.Some? ==> s.uploadStartTime.Some?
    ensures !s.isUploading ==> s.progress.estimatedTimeRemaining.None?
  {
  }
}

=== FILE: seqs.dfy ===
/**
 Sequence utilities shared by the model: an order-preserving filter, an
 element-wise map and a sum. All three recurse on the LAST element, so that a
 loop over a prefix `s[..i]` extends them one element at a time.
 */
module Seqs {

  /** The elements of `s` that satisfy `keep`, in their original order. */
  function Filter<T(!new)>(s: seq<T>, keep: T -> bool): (r: seq<T>)
    ensures |r| <= |s|
    ensures forall i :: 0 <= i < |r| ==> keep(r[i])
    decreases |s|
  {
    if |s| == 0 then []
    else Filter(s[..|s| - 1], keep) + (if keep(s[|s| - 1]) then [s[|s| - 1]] else [])
  }

  /** The filter keeps exactly the elements that satisfy `keep`. */
  lemma {:induction false} FilterMembers<T(!new)>(s: seq<T>, keep: T -> bool)
    ensures forall x :: x in Filter(s, keep) <==> x in s && keep(x)
    decreases |s|
  {
    if |s| > 0 {
      var init, last := s[..|s| - 1], s[|s| - 1];
      assert s == init + [last];
      FilterMembers(init, keep);
    }
  }

  /** `f` applied to every element of `s`, in order. */
  function Map<T, U>(s: seq<T>, f: T -> U): (r: seq<U>)
    ensures |r| == |s|
    ensures forall i :: 0 <= i < |s| ==> r[i] == f(s[i])
    decreases |s|
  {
    if |s| == 0 then [] else Map(s[..|s| - 1], f) + [f(s[|s| - 1])]
  }

  /** The sum of `f` over the elements of `s`. */
  function Sum<T>(s: seq<T>, f: T -> nat): nat
    decreases |s|
  {
    if |s| == 0 then 0 else Sum(s[..|s| - 1], f) + f(s[|s| - 1])
  }

  /** Appending one element extends the filter by that element or by nothing. */
  lemma FilterSnoc<T(!new)>(s: seq<T>, x: T, keep: T -> bool)
    ensures Filter(s + [x], keep) == Filter(s, keep) + (if keep(x) then [x] else [])
  {
    assert (s + [x])[..|s + [x]| - 1] == s;
  }

  /** Appending one element adds its value to the sum. */
  lemma SumSnoc<T>(s: seq<T>, x: T, f: T -> nat)
    ensures Sum(s + [x], f) == Sum(s, f) + f(x)
  {
    assert (s + [x])[..|s + [x]| - 1] == s;
  }

  /** Filtering distributes over concatenation, which pins down the order of
      the kept elements. */
  lemma {:induction false} FilterConcat<T(!new)>(a: seq<T>, b: seq<T>, keep: T -> bool)
    ensures Filter(a + b, keep) == Filter(a, keep) + Filter(b, keep)
    decreases |b|
  {
    if |b| == 0 {
      assert a + b == a;
    } else {
      var init, last := b[..|b| - 1], b[|b| - 1];
      assert b == init + [last];
      assert a + b == (a + init) + [last];
      FilterConcat(a, init, keep);
      FilterSnoc(a + init, last, keep);
      FilterSnoc(init, last, keep);
    }
  }

  /** When no element is kept, the filter is empty. */
  lemma {:induction false} FilterKeepsNone<T(!new)>(s: seq<T>, keep: T -> bool)
    requires forall i :: 0 <= i < |s| ==> !keep(s[i])
    ensures Filter(s, keep) == []
    decreases |s|
  {
    if |s| > 0 {
      FilterKeepsNone(s[..|s| - 1], keep);
    }
  }

  /** A second pass of the same filter removes nothing. */
  lemma {:induction false} FilterIdempotent<T(!new)>(s: seq<T>, keep: T -> bool)
    ensures Filter(Filter(s, keep), keep) == Filter(s, keep)
    decreases |s|
  {
    if |s| > 0 {
      var init, last := s[..|s| - 1], s[|s| - 1];
      var fi := Filter(init, keep);
      FilterIdempotent(init, keep);
      if keep(last) {
        assert Filter(s, keep) == fi + [last];
        FilterSnoc(fi, last, keep);
      } else {
        assert Filter(s, keep) == fi;
      }
    }
  }

  /** When every element is kept, the filter is the identity. */
  lemma {:induction false} FilterKeepsAll<T(!new)>(s: seq<T>, keep: T -> bool)
    requires forall i :: 0 <= i < |s| ==> keep(s[i])
    ensures Filter(s, keep) == s
    decreases |s|
  {
    if |s| > 0 {
      FilterKeepsAll(s[..|s| - 1], keep);
    }
  }

  /** A sum splits into the sum over the kept and the sum over the dropped
      elements, when `drop` is the complement of `keep`. */
  lemma {:induction false} SumPartition<T(!new)>(s: seq<T>, f: T -> nat, keep: T -> bool, drop: T -> bool)
    requires forall x :: drop(x) == !keep(x)
    ensures Sum(s, f) == Sum(Filter(s, keep), f) + Sum(Filter(s, drop), f)
    decreases |s|
  {
    if |s| > 0 {
      var init, last := s[..|s| - 1], s[|s| - 1];
      var ki, di := Filter(init, keep), Filter(init, drop);
      SumPartition(init, f, keep, drop);
      assert Sum(s, f) == Sum(init, f) + f(last);
      if keep(last) {
        assert Filter(s, keep) == ki + [last];
        assert Filter(s, drop) == di;
        SumSnoc(ki, last, f);
      } else {
        assert Filter(s, keep) == ki;
        assert Filter(s, drop) == di + [last];
        SumSnoc(di, last, f);
      }
    }
  }

  /** The lengths of a filter and its complement add up to the whole. */
  lemma {:induction false} FilterPartitionLength<T(!new)>(s: seq<T>, keep: T -> bool, drop: T -> bool)
    requires forall x :: drop(x) == !keep(x)
    ensures |Filter(s, keep)| + |Filter(s, drop)| == |s|
    decreases |s|
  {
    if |s| > 0 {
      FilterPartitionLength(s[..|s| - 1], keep, drop);
    }
  }

  /** Mapping then filtering on the image equals filtering then mapping, when
      the two predicates agree through `f`. */
  lemma {:induction false} MapFilterCommute<T(!new), U(!new)>(s: seq<T>, f: T -> U, keepT: T -> bool, keepU: U -> bool)
    requires forall x :: keepU(f(x)) == keepT(x)
    ensures Map(Filter(s, keepT), f) == Filter(Map(s, f), keepU)
    decreases |s|
  {
    if |s| > 0 {
      var init, last := s[..|s| - 1], s[|s| - 1];
      MapFilterCommute(init, f, keepT, keepU);
      assert Map(s, f)[..|s| - 1] == Map(init, f);
      if keepT(last) {
        assert Filter(s, keepT) == Filter(init, keepT) + [last];
        assert Filter(s, keepT)[..|Filter(s, keepT)| - 1] == Filter(init, keepT);
      } else {
        assert Filter(s, keepT) == Filter(init, keepT);
      }
    }
  }

  /** A pointwise bound between two functions carries over to their sums. */
  lemma {:induction false} SumMonotone<T>(s: seq<T>, f: T -> nat, g: T -> nat)
    requires forall i :: 0 <= i < |s| ==> f(s[i]) <= g(s[i])
    ensures Sum(s, f) <= Sum(s, g)
    decreases |s|
  {
    if |s| > 0 {
      SumMonotone(s[..|s| - 1], f, g);
    }
  }

  /** A filter is non-empty exactly when some element is kept. */
  lemma FilterNonEmpty<T(!new)>(s: seq<T>, keep: T -> bool)
    ensures |Filter(s, keep)| > 0 <==> exists i :: 0 <= i < |s| && keep(s[i])
  {
    FilterMembers(s, keep);
    if |Filter(s, keep)| > 0 {
      assert Filter(s, keep)[0] in s;
    }
    if exists i :: 0 <= i < |s| && keep(s[i]) {
      var i :| 0 <= i < |s| && keep(s[i]);
      assert s[i] in Filter(s, keep);
    }
  }
}

=== FILE: types.dfy ===
/**
 The data model of the uploader: the display entry per file, the overall
 progress record, and the shape of the upload library's own file record as the
 hook reads it.

 JavaScript's `||` on optional values is modelled explicitly: a string is
 "truthy" when it is present and non-empty, so `s || d` falls back to `d` on
 both a missing and an empty string.
 */
module Types {

  datatype Option<T> = None | Some(value: T) {
    /** The wrapped value, or `default` when absent. */
    function GetOr(default: T): T {
      if Some? then value else default
    }
  }

  /** JavaScript truthiness of an optional string: present and non-empty. */
  predicate Truthy(s: Option<string>) {
    s.Some? && s.value != ""
  }

  /** An optional string, or a plain fallback when it is absent or empty. */
  function OrElse(s: Option<string>, fallback: string): (r: string)
    ensures Truthy(s) ==> r == s.value
    ensures !Truthy(s) ==> r == fallback
  {
    if Truthy(s) then s.value else fallback
  }

  /** The first of two optional strings when it is present and non-empty,
      otherwise the second as it is. */
  function Or(a: Option<string>, b: Option<string>): (r: Option<string>)
    ensures Truthy(a) ==> r == a
    ensures !Truthy(a) ==> r == b
  {
    if Truthy(a) then a else b
  }

  /** The four lifecycle states a display entry can be in. */
  datatype FileStatus = Pending | Uploading | Complete | Error

  /** One displayed file. `progress` is documented as a 0..100 value but is
      passed through from the library unchecked. */
  datatype FileEntry = FileEntry(
    id: string,
    name: string,
    size: nat,
    mimeType: string,
    status: FileStatus,
    progress: int,
    preview: Option<string>,
    uploadURL: Option<string>,
    error: Option<string>)

  /** Aggregate progress over all files; `startTime` is in milliseconds and
      `estimatedTimeRemaining` in seconds, both optional. */
  datatype OverallProgress = OverallProgress(
    totalFiles: nat,
    completedFiles: nat,
    totalBytes: nat,
    uploadedBytes: nat,
    percentage: int,
    startTime: Option<int>,
    estimatedTimeRemaining: Option<int>)

  /** The all-zero progress record the hook starts from and resets to. */
  const NoProgress := OverallProgress(0, 0, 0, 0, 0, None, None)

  /** The per-file progress record kept by the upload library.
      `uploadStarted` is the truthiness of the library's start timestamp;
      `bytesUploaded` is None when the library holds `false` or nothing. */
  datatype RawProgress = RawProgress(
    uploadStarted: bool,
    uploadComplete: bool,
    percentage: Option<int>,
    bytesUploaded: Option<nat>)

  /** The response stored on a file: its own `uploadURL` and the `url` field
      of its body (None when the body or the field is missing). */
  datatype RawResponse = RawResponse(uploadURL: Option<string>, bodyUrl: Option<string>)

  /** The upload library's file record, every field the hook reads. */
  datatype RawFile = RawFile(
    id: string,
    name: Option<string>,
    size: Option<nat>,
    mimeType: Option<string>,
    progress: Option<RawProgress>,
    preview: Option<string>,
    response: Option<RawResponse>,
    error: Option<string>)

  /** The library has marked the upload finished. */
  predicate UploadComplete(f: RawFile) {
    f.progress.Some? && f.progress.value.uploadComplete
  }

  /** The library has marked the upload started. */
  predicate UploadStarted(f: RawFile) {
    f.progress.Some? && f.progress.value.uploadStarted
  }

  /** The record carries a non-empty error message. */
  predicate HasError(f: RawFile) {
    Truthy(f.error)
  }

  /** The size in bytes, 0 when unknown. */
  function SizeOf(f: RawFile): nat {
    f.size.GetOr(0)
  }

  /** The bytes the library reports as sent, 0 when it reports none. */
  function BytesOf(f: RawFile): nat {
    if f.progress.Some? then f.progress.value.bytesUploaded.GetOr(0) else 0
  }
}

=== FILE: uploader.dfy ===
/**
 The upload plugin (src/utils/CloudinaryUploader.ts): one transfer per file
 id, all started at once, each a multipart POST to the hosting service's
 upload endpoint, and each transfer's outcome turned into the `upload-*`
 events the library listens for.

 The XMLHttpRequest itself is not modelled. A transfer's outcome is an input:
 the progress samples the browser reports and how the request ended.
 */
module Uploader {
  import opened Types
  import opened Seqs
  import opened FileSync

  datatype Config = Config(cloudName: string, uploadPreset: string)

  /** The configuration module's settings: each one is read from its
      environment variable, with a placeholder when that is unset or empty. */
  function ConfigFromEnv(cloudNameEnv: Option<string>, uploadPresetEnv: Option<string>): (c: Config)
    ensures Truthy(cloudNameEnv) ==> c.cloudName == cloudNameEnv.value
    ensures !Truthy(cloudNameEnv) ==> c.cloudName == "YOUR_CLOUD_NAME"
    ensures Truthy(uploadPresetEnv) ==> c.uploadPreset == uploadPresetEnv.value
    ensures !Truthy(uploadPresetEnv) ==> c.uploadPreset == "YOUR_UPLOAD_PRESET"
  {
    Config(OrElse(cloudNameEnv, "YOUR_CLOUD_NAME"), OrElse(uploadPresetEnv, "YOUR_UPLOAD_PRESET"))
  }

  /** The upload URL the configuration module exports, built once from its
      own template. */
  function ConfiguredUploadUrl(config: Config): string {
    "https://api.cloudinary.com/v1_1/" + config.cloudName + "/image/upload"
  }

  const EndpointPrefix: string := "https://api.cloudinary.com/v1_1/"
  const EndpointSuffix: string := "/image/upload"

  /** The upload URL for a cloud name. The plugin builds it per request and
      the configuration module builds the same template once. */
  function UploadEndpoint(cloudName: string): (url: string)
    ensures |url| == |EndpointPrefix| + |cloudName| + |EndpointSuffix|
    ensures url[..|EndpointPrefix|] == EndpointPrefix
    ensures url[|url| - |EndpointSuffix|..] == EndpointSuffix
    ensures url[|EndpointPrefix|..|url| - |EndpointSuffix|] == cloudName
  {
    EndpointPrefix + cloudName + EndpointSuffix
  }

  /** The cloud name an upload URL was built from, if it has that shape. */
  function CloudNameOf(url: string): Option<string> {
    var p, q := |EndpointPrefix|, |EndpointSuffix|;
    if |url| >= p + q && url[..p] == EndpointPrefix && url[|url| - q..] == EndpointSuffix then
      Some(url[p..|url| - q])
    else
      None
  }

  /** The cloud name can be read back from the endpoint. */
  lemma EndpointRoundTrip(cloudName: string)
    ensures CloudNameOf(UploadEndpoint(cloudName)) == Some(cloudName)
  {
    var url := UploadEndpoint(cloudName);
    assert url[|EndpointPrefix|..|url| - |EndpointSuffix|] == cloudName;
  }

  /** Every URL of the endpoint's shape is the endpoint of the name read from it. */
  lemma CloudNameOfInverse(url: string)
    ensures CloudNameOf(url).Some? ==> UploadEndpoint(CloudNameOf(url).value) == url
  {
    if CloudNameOf(url).Some? {
      var p, q := |EndpointPrefix|, |EndpointSuffix|;
      assert url == url[..p] + url[p..|url| - q] + url[|url| - q..];
    }
  }

  /** Distinct cloud names give distinct endpoints. */
  lemma EndpointInjective(a: string, b: string)
    ensures UploadEndpoint(a) == UploadEndpoint(b) ==> a == b
  {
    EndpointRoundTrip(a);
    EndpointRoundTrip(b);
  }

  datatype FormValue = FileBlob(fileId: string) | Text(text: string)
  datatype FormField = FormField(name: string, value: FormValue)

  /** The multipart body: the file's bytes, then the upload preset. */
  function FormBody(fileId: string, uploadPreset: string): seq<FormField> {
    [FormField("file", FileBlob(fileId)), FormField("upload_preset", Text(uploadPreset))]
  }

  /** The first value stored under `name`, as `FormData.get` reads it. */
  function FormGet(form: seq<FormField>, name: string): Option<FormValue>
    decreases |form|
  {
    if |form| == 0 then None
    else if form[0].name == name then Some(form[0].value)
    else FormGet(form[1..], name)
  }

  function FieldName(f: FormField): string {
    f.name
  }

  /** The body holds exactly two fields, `file` then `upload_preset`, with the
      file's bytes and the preset; any other name reads as absent. */
  lemma FormBodyContents(fileId: string, uploadPreset: string, other: string)
    requires other != "file" && other != "upload_preset"
    ensures Map(FormBody(fileId, uploadPreset), FieldName) == ["file", "upload_preset"]
    ensures FormGet(FormBody(fileId, uploadPreset), "file") == Some(FileBlob(fileId))
    ensures FormGet(FormBody(fileId, uploadPreset), "upload_preset") == Some(Text(uploadPreset))
    ensures FormGet(FormBody(fileId, uploadPreset), other) == None
  {
    var form := FormBody(fileId, uploadPreset);
    assert form[1..] == [FormField("upload_preset", Text(uploadPreset))];
    assert "file" != "upload_preset" by { assert "file"[0] != "upload_preset"[0]; }
    assert form[1..][1..] == [];
    assert FormGet(form, other) == FormGet(form[1..], other);
    assert FormGet(form[1..], other) == FormGet(form[1..][1..], other);
  }

  /** One browser progress report: `lengthComputable`, `loaded`, `total`. */
  datatype ProgressSample = ProgressSample(lengthComputable: bool, loaded: int, total: int)

  /** The fields of the parsed response body the plugin and the hook read. */
  datatype ResponseBody = ResponseBody(secureUrl: Option<string>, url: Option<string>)

  /** How the request ended: a `load` with the HTTP status and the parsed body
      (None when the response text is not JSON, or is the JSON value `null`,
      whose field read throws the same way), an `error`, or neither (abort or
      timeout, which no listener handles). */
  datatype Terminal = Load(status: int, body: Option<ResponseBody>) | NetworkError | NoTerminal

  datatype Outcome = Outcome(samples: seq<ProgressSample>, terminal: Terminal)

  datatype Event =
    | UploadStarted(fileId: string)
    | UploadProgress(fileId: string, bytesUploaded: int, bytesTotal: int)
    | UploadSuccess(fileId: string, status: int, body: ResponseBody, uploadURL: Option<string>)
    | UploadError(fileId: string, message: string)

  /** What one transfer does, in order: emit an event, open the request, send it. */
  datatype Effect = Emit(event: Event) | Open(verb: string, url: string, async: bool) | Send(form: seq<FormField>)

  /** How the promise a transfer returns settles. */
  datatype Settlement = Resolved | Rejected(reason: string) | Unsettled

  datatype FileRun = FileRun(trace: seq<Effect>, settlement: Settlement)

  predicate IsComputable(p: ProgressSample) {
    p.lengthComputable
  }

  predicate IsStartEffect(e: Effect) {
    e.Emit? && e.event.UploadStarted?
  }

  predicate IsSuccessEffect(e: Effect) {
    e.Emit? && e.event.UploadSuccess?
  }

  predicate IsErrorEffect(e: Effect) {
    e.Emit? && e.event.UploadError?
  }

  predicate IsRequestEffect(e: Effect) {
    e.Open? || e.Send?
  }

  /** The synchronous start of a transfer: `upload-started`, then the request
      is opened and sent. */
  function RequestPrefix(fileId: string, config: Config): seq<Effect> {
    [Emit(UploadStarted(fileId)),
     Open("POST", UploadEndpoint(config.cloudName), true),
     Send(FormBody(fileId, config.uploadPreset))]
  }

  /** One `upload-progress` per computable sample, with `loaded` and `total`
      passed through unchanged; other samples are ignored. */
  function ProgressEffects(fileId: string, samples: seq<ProgressSample>): (r: seq<Effect>)
    ensures |r| == |Filter(samples, IsComputable)|
    ensures forall k :: 0 <= k < |r| ==>
      r[k] == Emit(UploadProgress(fileId, Filter(samples, IsComputable)[k].loaded, Filter(samples, IsComputable)[k].total))
    decreases |samples|
  {
    if |samples| == 0 then []
    else
      var last := samples[|samples| - 1];
      ProgressEffects(fileId, samples[..|samples| - 1])
        + (if last.lengthComputable then [Emit(UploadProgress(fileId, last.loaded, last.total))] else [])
  }

  /** The events and settlement of a request's end. A status in [200, 300)
      with a JSON body succeeds with `secure_url` as the URL; a JSON parse
      failure throws inside the listener, so nothing is emitted and the
      promise never settles; any other status fails with "Upload failed"; a
      network error fails with "Network error"; an end no listener sees
      leaves the promise pending. */
  function Finish(fileId: string, t: Terminal): (r: (seq<Effect>, Settlement))
    ensures |r.0| == (if Succeeds(t) || Fails(t) then 1 else 0)
  {
    match t
    case Load(status, body) =>
      if 200 <= status < 300 then
        match body
        case Some(b) => ([Emit(UploadSuccess(fileId, status, b, b.secureUrl))], Resolved)
        case None => ([], Unsettled)
      else
        ([Emit(UploadError(fileId, "Upload failed"))], Rejected("Upload failed"))
    case NetworkError => ([Emit(UploadError(fileId, "Network error"))], Rejected("Network error"))
    case NoTerminal => ([], Unsettled)
  }

  /** `uploadFile`: one transfer from its outcome to its effects. */
  function UploadFile(fileId: string, config: Config, outcome: Outcome): (run: FileRun)
    ensures |run.trace| >= 3 && run.trace[..3] == RequestPrefix(fileId, config)
    ensures forall k :: 3 <= k < |run.trace| ==> run.trace[k].Emit? && run.trace[k].event.fileId == fileId
    ensures forall k :: 3 <= k < |run.trace| ==> !IsStartEffect(run.trace[k])
    ensures |run.trace| == 3 + |Filter(outcome.samples, IsComputable)| +
                           (if Succeeds(outcome.terminal) || Fails(outcome.terminal) then 1 else 0)
  {
    var (tail, settlement) := Finish(fileId, outcome.terminal);
    var pre, rest := RequestPrefix(fileId, config), ProgressEffects(fileId, outcome.samples) + tail;
    assert forall k :: 0 <= k < |rest| ==>
      rest[k].Emit? && rest[k].event.fileId == fileId && !IsStartEffect(rest[k]);
    assert (pre + rest)[..3] == pre;
    assert forall k :: 3 <= k < |pre + rest| ==> (pre + rest)[k] == rest[k - 3];
    FileRun(pre + rest, settlement)
  }

  /** The request ended in a successful load with a JSON body. */
  predicate Succeeds(t: Terminal) {
    t.Load? && 200 <= t.status < 300 && t.body.Some?
  }

  /** The request ended in a load with another status, or in a network error. */
  predicate Fails(t: Terminal) {
    (t.Load? && !(200 <= t.status < 300)) || t.NetworkError?
  }

  /** `upload-started` comes first, before the request is opened and sent,
      and is emitted once. */
  lemma StartedBeforeRequest(fileId: string, config: Config, outcome: Outcome)
    ensures var tr := UploadFile(fileId, config, outcome).trace;
      forall j :: 0 <= j < |tr| && IsRequestEffect(tr[j]) ==> 0 < j && tr[0] == Emit(UploadStarted(fileId))
    ensures |Filter(UploadFile(fileId, config, outcome).trace, IsStartEffect)| == 1
  {
    var run := UploadFile(fileId, config, outcome);
    var pre, rest := RequestPrefix(fileId, config), run.trace[3..];
    assert run.trace == pre + rest;
    FilterConcat(pre, rest, IsStartEffect);
    FilterKeepsNone(rest, IsStartEffect);
    PrefixStartsOnce(fileId, config);
  }

  lemma PrefixStartsOnce(fileId: string, config: Config)
    ensures Filter(RequestPrefix(fileId, config), IsStartEffect) == [Emit(UploadStarted(fileId))]
  {
    var pre := RequestPrefix(fileId, config);
    assert pre[..2][..1][..0] == [];
    assert Filter(pre[..2][..1], IsStartEffect) == [pre[0]];
    assert Filter(pre[..2], IsStartEffect) == [pre[0]];
  }

  /** The effects after the request are the progress events for the computable
      samples, unchanged, followed by the end's events. */
  lemma ProgressPassesThrough(fileId: string, config: Config, outcome: Outcome)
    ensures var run := UploadFile(fileId, config, outcome);
      var computable := Filter(outcome.samples, IsComputable);
      |run.trace| >= 3 + |computable| &&
      forall k :: 0 <= k < |computable| ==>
        run.trace[3 + k] == Emit(UploadProgress(fileId, computable[k].loaded, computable[k].total))
  {
  }

  /** A transfer emits `upload-success` exactly when the load succeeded with
      a JSON body, then exactly once, carrying that body's `secure_url`. */
  lemma SuccessIff(fileId: string, config: Config, outcome: Outcome)
    ensures var tr := UploadFile(fileId, config, outcome).trace;
      (exists k :: 0 <= k < |tr| && IsSuccessEffect(tr[k])) <==> Succeeds(outcome.terminal)
    ensures |Filter(UploadFile(fileId, config, outcome).trace, IsSuccessEffect)| ==
              (if Succeeds(outcome.terminal) then 1 else 0)
    ensures var tr := UploadFile(fileId, config, outcome).trace;
      forall k :: 0 <= k < |tr| && IsSuccessEffect(tr[k]) ==>
        tr[k].event.uploadURL == outcome.terminal.body.value.secureUrl
  {
    EndEventsOnly(fileId, config, outcome, IsSuccessEffect);
    TraceShape(fileId, config, outcome);
    var tr := UploadFile(fileId, config, outcome).trace;
    var tail := Finish(fileId, outcome.terminal).0;
    if Succeeds(outcome.terminal) {
      assert IsSuccessEffect(tr[|tr| - 1]) by { assert tr[|tr| - 1] == tail[0]; }
    } else {
      forall k | 0 <= k < |tr|
        ensures !IsSuccessEffect(tr[k])
      {
        if k >= |tr| - |tail| {
          assert tr[k] == tail[k - (|tr| - |tail|)];
        }
      }
    }
  }

  /** A transfer emits `upload-error` exactly when the load had another status
      or the network failed, then exactly once; the message names which. */
  lemma ErrorIff(fileId: string, config: Config, outcome: Outcome)
    ensures var tr := UploadFile(fileId, config, outcome).trace;
      (exists k :: 0 <= k < |tr| && IsErrorEffect(tr[k])) <==> Fails(outcome.terminal)
    ensures |Filter(UploadFile(fileId, config, outcome).trace, IsErrorEffect)| ==
              (if Fails(outcome.terminal) then 1 else 0)
    ensures var tr := UploadFile(fileId, config, outcome).trace;
      forall k :: 0 <= k < |tr| && IsErrorEffect(tr[k]) ==>
        tr[k].event.message == (if outcome.terminal.NetworkError? then "Network error" else "Upload failed")
  {
    EndEventsOnly(fileId, config, outcome, IsErrorEffect);
    TraceShape(fileId, config, outcome);
    var tr := UploadFile(fileId, config, outcome).trace;
    var tail := Finish(fileId, outcome.terminal).0;
    if Fails(outcome.terminal) {
      assert IsErrorEffect(tr[|tr| - 1]) by { assert tr[|tr| - 1] == tail[0]; }
    } else {
      forall k | 0 <= k < |tr|
        ensures !IsErrorEffect(tr[k])
      {
        if k >= |tr| - |tail| {
          assert tr[k] == tail[k - (|tr| - |tail|)];
        }
      }
    }
  }

  /** No transfer emits both a success and an error, and its promise settles
      in agreement with the event it emitted. */
  lemma SettlementAgrees(fileId: string, config: Config, outcome: Outcome)
    ensures var run := UploadFile(fileId, config, outcome);
      !((exists k :: 0 <= k < |run.trace| && IsSuccessEffect(run.trace[k])) &&
        (exists k :: 0 <= k < |run.trace| && IsErrorEffect(run.trace[k])))
    ensures var run := UploadFile(fileId, config, outcome);
      (run.settlement == Resolved <==> Succeeds(outcome.terminal)) &&
      (run.settlement.Rejected? <==> Fails(outcome.terminal)) &&
      (run.settlement == Unsettled <==> !Succeeds(outcome.terminal) && !Fails(outcome.terminal))
  {
    SuccessIff(fileId, config, outcome);
    ErrorIff(fileId, config, outcome);
  }

  /** Counting success or error events over a whole trace counts them over the
      end's events alone. */
  lemma EndEventsOnly(fileId: string, config: Config, outcome: Outcome, keep: Effect -> bool)
    requires forall e :: keep(e) ==> IsSuccessEffect(e) || IsErrorEffect(e)
    ensures Filter(UploadFile(fileId, config, outcome).trace, keep) == Filter(Finish(fileId, outcome.terminal).0, keep)
  {
    TraceShape(fileId, config, outcome);
    var tr := UploadFile(fileId, config, outcome).trace;
    var tail := Finish(fileId, outcome.terminal).0;
    var front := tr[..|tr| - |tail|];
    assert tr == front + tail;
    assert forall i :: 0 <= i < |front| ==> !keep(front[i]) by {
      forall i | 0 <= i < |front|
        ensures !keep(front[i])
      {
        assert front[i] == tr[i];
      }
    }
    FilterConcat(front, tail, keep);
    FilterKeepsNone(front, keep);
  }

  /** The trace is the request prefix, then progress events, then the end's
      events, and only the end's events can be a success or an error. */
  lemma TraceShape(fileId: string, config: Config, outcome: Outcome)
    ensures var tr := UploadFile(fileId, config, outcome).trace;
      var tail := Finish(fileId, outcome.terminal).0;
      |tr| >= |tail| &&
      tr[|tr| - |tail|..] == tail &&
      forall k :: 0 <= k < |tr| - |tail| ==> !IsSuccessEffect(tr[k]) && !IsErrorEffect(tr[k])
  {
    var prog := ProgressEffects(fileId, outcome.samples);
    var tail := Finish(fileId, outcome.terminal).0;
    var tr := UploadFile(fileId, config, outcome).trace;
    assert tr == RequestPrefix(fileId, config) + prog + tail;
    forall k | 0 <= k < |tr| - |tail|
      ensures !IsSuccessEffect(tr[k]) && !IsErrorEffect(tr[k])
    {
      if k >= 3 {
        assert tr[k] == prog[k - 3];
      }
    }
  }

  /** How `Promise.all` over the transfers settles: rejected once any
      transfer rejects, resolved when all resolve, pending otherwise. */
  datatype BatchSettlement = BatchResolved | BatchRejected | BatchPending

  datatype Batch = Batch(runs: seq<FileRun>, settlement: BatchSettlement)

  function PromiseAll(runs: seq<FileRun>): BatchSettlement {
    if exists i :: 0 <= i < |runs| && runs[i].settlement.Rejected? then BatchRejected
    else if forall i :: 0 <= i < |runs| ==> runs[i].settlement == Resolved then BatchResolved
    else BatchPending
  }

  /** `upload`: one transfer per id in list order, with outcome `outcomes[i]`
      for `fileIds[i]`; an empty list resolves at once with no transfer. */
  function Upload(fileIds: seq<string>, config: Config, outcomes: seq<Outcome>): (b: Batch)
    requires |outcomes| == |fileIds|
    ensures |fileIds| == 0 ==> b.runs == [] && b.settlement == BatchResolved
    ensures |b.runs| == |fileIds|
    ensures forall i :: 0 <= i < |fileIds| ==> b.runs[i] == UploadFile(fileIds[i], config, outcomes[i])
  {
    if |fileIds| == 0 then Batch([], BatchResolved)
    else
      var runs := seq(|fileIds|, i requires 0 <= i < |fileIds| => UploadFile(fileIds[i], config, outcomes[i]));
      Batch(runs, PromiseAll(runs))
  }

  /** The batch resolves exactly when every transfer ends in a successful load
      with a JSON body, and rejects exactly when some transfer fails. */
  lemma UploadSettles(fileIds: seq<string>, config: Config, outcomes: seq<Outcome>)
    requires |outcomes| == |fileIds|
    ensures Upload(fileIds, config, outcomes).settlement == BatchResolved <==>
              forall i :: 0 <= i < |fileIds| ==> Succeeds(outcomes[i].terminal)
    ensures Upload(fileIds, config, outcomes).settlement == BatchRejected <==>
              exists i :: 0 <= i < |fileIds| && Fails(outcomes[i].terminal)
  {
    var b := Upload(fileIds, config, outcomes);
    forall i | 0 <= i < |fileIds|
      ensures (b.runs[i].settlement == Resolved <==> Succeeds(outcomes[i].terminal))
      ensures (b.runs[i].settlement.Rejected? <==> Fails(outcomes[i].terminal))
    {
      SettlementAgrees(fileIds[i], config, outcomes[i]);
    }
  }

  /** The number of `upload-started` events in one transfer. */
  function StartCount(run: FileRun): nat {
    |Filter(run.trace, IsStartEffect)|
  }

  /** Exactly one transfer starts per id: the batch emits one
      `upload-started` per list entry. */
  lemma {:induction false} OneStartPerId(fileIds: seq<string>, config: Config, outcomes: seq<Outcome>)
    requires |outcomes| == |fileIds|
    ensures Sum(Upload(fileIds, config, outcomes).runs, StartCount) == |fileIds|
    decreases |fileIds|
  {
    if |fileIds| > 0 {
      var n := |fileIds| - 1;
      var runs := Upload(fileIds, config, outcomes).runs;
      OneStartPerId(fileIds[..n], config, outcomes[..n]);
      assert runs[..n] == Upload(fileIds[..n], config, outcomes[..n]).runs;
      StartedBeforeRequest(fileIds[n], config, outcomes[n]);
    }
  }

  /** The synchronous phase of `upload`: every transfer's start, request open
      and send, in list order, before any response can arrive. There is no
      cap and no queue. */
  function StartPhase(fileIds: seq<string>, config: Config): (r: seq<Effect>)
    ensures |r| == 3 * |fileIds|
    ensures forall i :: 0 <= i < |fileIds| ==> r[3 * i .. 3 * i + 3] == RequestPrefix(fileIds[i], config)
    decreases |fileIds|
  {
    if |fileIds| == 0 then []
    else
      var n := |fileIds| - 1;
      var init, last := StartPhase(fileIds[..n], config), RequestPrefix(fileIds[n], config);
      assert forall i :: 0 <= i < n ==> (init + last)[3 * i .. 3 * i + 3] == init[3 * i .. 3 * i + 3] by {
        forall i | 0 <= i < n {
          SliceInFront(init, last, 3 * i, 3 * i + 3);
        }
      }
      assert (init + last)[3 * n .. 3 * n + 3] == last;
      init + last
  }

  /** A slice that lies inside the front part of a concatenation. */
  lemma SliceInFront<T>(a: seq<T>, b: seq<T>, lo: nat, hi: nat)
    requires lo <= hi <= |a|
    ensures (a + b)[lo..hi] == a[lo..hi]
  {
  }

  /** The plugin builds its request URL itself rather than importing the
      configuration module's, but both templates give the same string, so
      every request opens the configured upload URL. */
  lemma RequestUsesConfiguredUrl(fileId: string, config: Config, outcome: Outcome)
    ensures ConfiguredUploadUrl(config) == UploadEndpoint(config.cloudName)
    ensures UploadFile(fileId, config, outcome).trace[1] == Open("POST", ConfiguredUploadUrl(config), true)
  {
  }

  /** Each transfer's own trace begins with its slot of the start phase. */
  lemma StartPhaseMatchesRuns(fileIds: seq<string>, config: Config, outcomes: seq<Outcome>)
    requires |outcomes| == |fileIds|
    ensures forall i :: 0 <= i < |fileIds| ==>
      StartPhase(fileIds, config)[3 * i .. 3 * i + 3] == Upload(fileIds, config, outcomes).runs[i].trace[..3]
  {
  }

  /** The response the plugin hands over on success, as the hook later reads
      it from the file: `uploadURL` is `secure_url` and the body keeps `url`. */
  function StoredResponse(b: ResponseBody): RawResponse {
    RawResponse(b.secureUrl, b.url)
  }

  /** A file holding a success response stores its `secure_url` on its entry,
      or the body's `url` when `secure_url` is missing or empty. */
  lemma EntryUrlIsSecureUrl(f: RawFile, b: ResponseBody)
    requires f.response == Some(StoredResponse(b))
    ensures Truthy(b.secureUrl) ==> Project(f).uploadURL == b.secureUrl
    ensures !Truthy(b.secureUrl) ==> Project(f).uploadURL == b.url
  {
  }
}
